=== FILE: README.md ===
# OptiQuasar data-preparation core in Dafny

OptiQuasar prepares paired speckle/original image crops for training an
image-reconstruction network. The repository leaves shuffling, batching and
prefetching to `tf.data` and parallel maps to a process pool. The logic it owns
is the set of small sequential pieces modelled here, one Dafny module per
Python file:

- `Utils` (optibeam/utils.py) covers several pieces:
  - the left-to-right function pipeline built by `combine_functions`;
  - the keyword merge of `preset_kwargs`;
  - rectangle cropping by NumPy slicing, with Python's slice rules written out;
  - the target-height choice and error checks of `join_images`;
  - `subtract_minimum` on integer 1-D arrays;
  - the name filter and traversal order of `get_all_file_paths`.
- `Processing` (optibeam/processing.py) covers three pieces:
  - `crop_images_from_clicks`;
  - the mouse-click state machines of the corner and centre region selectors, as classes whose `MouseClick` method updates `points` and `rectangles`/`squares`;
  - the integer path of `apply_threshold`.
- `DataPipeline` (optibeam/datapipeline.py) covers two pieces:
  - the bookkeeping of `DataLoaderTF`: its length, the replacement of `dirs`, and the preprocessing fold;
  - the old `data_pipeline` generator, as a class whose `Step` method runs one iteration of the row loop.
- `Results` holds the Option/Result types and the Python exceptions the code raises.

Python exceptions are modelled as `Err` results carrying the exception and its
message. The file system walk, path joining, image decoding and image loading are
function parameters. Images are `seq<seq<T>>` grids when they are sliced, and
`NdArray(shape, data)` with row-major integer data when only their shape and
elements matter.

Two behaviours of the code are worth stating up front, and the model follows them:

- The code does not reject a rectangle whose corners are out of order. It slices it, which gives an empty crop, or a wrapped one for negative corners. `Utils.Crop` models exactly that.
- The code has no shuffle window, no prefetch queue and no partial-batch policy of its own. The old generator buffers rows across passes and never emits a partial batch. `tf.data` does the rest, and that is not part of this model.

## Model

| member | source | states |
|---|---|---|
| Utils.CombineFunctions | optibeam/utils.py:36-51 | an empty list gives the identity; a one-element list gives that very function |
| Utils.CombineFunctionsAppliesInOrder | optibeam/utils.py:49-51 | the combined function applies the list left to right, fn(...f2(f1(x))) |
| Utils.ApplyInOrderAppend | optibeam/utils.py:51 | running fs then gs equals running the concatenated list |
| Utils.CombineFunctionsConcat | optibeam/utils.py:49-51 | combining a concatenation equals composing the two combined functions, the first list running first |
| Utils.MergeKwargs | optibeam/utils.py:71 | merged keys are the union; passed kwargs override presets; presets fill keys not passed |
| Utils.PresetKwargs | optibeam/utils.py:67-72 | a call without keyword arguments gets exactly the presets; a call passing every preset key overrides all of them |
| Utils.PresetKwargsCall | optibeam/utils.py:67-72 | the wrapper calls the function with the positional args unchanged and the merged kwargs |
| Utils.PresetKwargsStacked | optibeam/utils.py:55-74 | stacking two presets equals one preset of the merged dicts, with the outer preset winning |
| Utils.SliceBound | optibeam/utils.py:309 | a Python slice bound lies in [0, n]: an index in range is kept, a negative one counts from the end (0 below -n), one above n becomes n |
| Utils.PySlice | optibeam/utils.py:309 | a Python slice first adjusts each bound (a negative one counts from the end, then both are clamped to the length); the result has length hi - lo when lo < hi and is empty otherwise, and its k-th element is the sequence's element lo + k; in particular it is the plain subsequence for in-range bounds |
| Utils.Crop | optibeam/utils.py:307-309 | for 0 <= tl <= br <= (W,H) the crop has br.y-tl.y rows of br.x-tl.x pixels, and crop[r][c] == image[tl.y+r][tl.x+c]; out-of-order corners give an empty crop or empty rows instead of an error |
| Utils.CropImages | optibeam/utils.py:292-312 | one crop per region, in region order |
| Utils.Heights | optibeam/utils.py:332-334 | the heights are shape[0] of every image, and they exist only if every image has at least one axis |
| Utils.MaxOf | optibeam/utils.py:332 | the maximum is an element and bounds every element |
| Utils.MinOf | optibeam/utils.py:334 | the minimum is an element and is below every element |
| Utils.JoinTargetHeight | optibeam/utils.py:315-336 | the method defaults to 'largest'; an empty list raises ValueError; a method other than 'largest'/'smallest' raises ValueError; an image without axes raises IndexError, and with a non-empty list and a valid method that is the only error; otherwise the height is the max (resp. min) of the input heights and is the height of some input |
| Utils.SubtractMinimum | optibeam/utils.py:352-364 | non-1-D input raises ValueError, as does an empty array (np.min); otherwise the shape is kept, out[i] == arr[i] - m for an element m that is the minimum, all outputs are >= 0, some output is 0, and non-negative inputs do not grow |
| Utils.AsList | optibeam/utils.py:199-200 | a single path string is walked as the one-element list holding it; a list is walked as given |
| Utils.MatchesAnyType | optibeam/utils.py:205 | no types match nothing; the type '' matches every name; a type equal to the name matches it |
| Utils.KeptFiles | optibeam/utils.py:204-205 | every kept name was walked and matches some type |
| Utils.KeptPaths | optibeam/utils.py:204-207 | the paths of one walked directory are its matching files joined to its root, in walk order |
| Utils.WalkedPaths | optibeam/utils.py:203-207 | the paths of one tree are the kept paths of each walked directory, concatenated in walk order |
| Utils.GetAllFilePaths | optibeam/utils.py:194-209 | a single string is treated as a one-element list; the result is the kept paths of every tree, in order |
| Utils.IsSubstringAt | optibeam/utils.py:205 | Python's `in` on strings holds exactly when the type occurs at some position of the name |
| Utils.KeptFilesMembership | optibeam/utils.py:205 | a file is kept iff some entry of `types` is a substring of its name |
| Utils.KeptFilesDefault | optibeam/utils.py:194 | the default types [''] keep every file, in order |
| Utils.KeptFilesShorter | optibeam/utils.py:204-205 | filtering never adds files |
| Processing.CropImagesFromClicks | optibeam/processing.py:52-75 | one crop per (top_left, bottom_right) pair, in list order, cut with the same slice as crop_images |
| Processing.Clamp | optibeam/processing.py:104-105 | max(0, min(v, hi)) lies in [0, hi], is v when v is in range, and is 0 or hi otherwise |
| Processing.ClampPoint | optibeam/processing.py:104-105 | each coordinate is clamped on its own, max(0, min(x, max_x)) and max(0, min(y, max_y)); the corner lies in bounds and an in-bounds corner is unchanged |
| Processing.ClampMonotone | optibeam/processing.py:161-162 | clamping keeps the order of two coordinates |
| Processing.CornerSelector.constructor | optibeam/processing.py:81-83 | empty point and rectangle lists, bounds from the image shape |
| Processing.CornerSelector.MouseClick | optibeam/processing.py:85-106 | other events change nothing; a click on a complete selection first clears both lists; the point is appended; on an even count the last two points are clamped and form a new rectangle; afterwards there are half as many rectangles as points (rounded down), every rectangle corner is in bounds, and for num >= 1 there are between 1 and 2*num points and at most num rectangles |
| Processing.SquareAround | optibeam/processing.py:156-160 | the raw square has equal width and height, is centred on the first click, and has the edge point on its boundary (side = max(dx, dy)) |
| Processing.ClampedSquare | optibeam/processing.py:158-163 | each corner is the coordinate-wise clamp of the raw square's corner; the result lies in [0,max_x] x [0,max_y], keeps top_left <= bottom_right, and is the raw square when that was already in bounds |
| Processing.CenterSelector.constructor | optibeam/processing.py:135-140 | empty point and square lists, bounds from the image shape |
| Processing.CenterSelector.MouseClick | optibeam/processing.py:138-163 | the same reset/append rule as the corner selector; points are stored unclamped; on an even count a clamped square around the previous point is appended, so square k is built from clicks 2k and 2k+1 |
| Processing.ApplyThreshold | optibeam/processing.py:191-211 | same shape; a pixel >= threshold is kept and any other becomes 0; the default threshold is 5 |
| Processing.ThresholdSurvivors | optibeam/processing.py:211 | every nonzero output pixel is >= threshold and equals the input pixel |
| Processing.ThresholdIdempotent | optibeam/processing.py:211 | thresholding twice equals thresholding once |
| DataPipeline.FloorDiv | optibeam/datapipeline.py:26 | Python's `//`: the remainder lies in [0, b) for b > 0 and in (b, 0] for b < 0 |
| DataPipeline.DataLoaderTF.constructor | optibeam/datapipeline.py:21-23 | dirs as given, batch size None |
| DataPipeline.DataLoaderTF.Length | optibeam/datapipeline.py:25-26 | len(None) raises TypeError; without a truthy batch size the length is the number of paths; with one it is the floor quotient, e.g. the number of whole batches for b > 0 |
| DataPipeline.DataLoaderTF.DirsFromSql | optibeam/datapipeline.py:31-32 | dirs is replaced by the query result; the batch size is unchanged |
| DataPipeline.DataLoaderTF.DirsFromRoot | optibeam/datapipeline.py:34-35 | dirs is replaced by the file walk's result, with None read as ['']; the batch size is unchanged |
| DataPipeline.DataLoaderTF.PreprocessImage | optibeam/datapipeline.py:53-65 | the decoded image goes through the callable entries in list order, skipping the others, i.e. through combine_functions of the callables; None or [] leaves it unchanged |
| DataPipeline.Callables | optibeam/datapipeline.py:60-62 | keeping only callables never lengthens the list |
| DataPipeline.CallablesAppend | optibeam/datapipeline.py:60-64 | the callables of a concatenation are the callables of each part, in order |
| DataPipeline.CallablesSingle | optibeam/datapipeline.py:61-64 | a callable entry contributes its function; any other entry is skipped |
| DataPipeline.KeptFilesAsWrittenOutcome | optibeam/utils.py:204-205 | the file filter run with types possibly None: given a list it is the filter itself; given None it raises TypeError("'NoneType' object is not iterable") at the first file and keeps nothing when there is no file |
| DataPipeline.EntryPathsAsWrittenOutcome | optibeam/utils.py:203-207 | over one directory walk: given a list of types it is the filtered walk; given None it raises TypeError exactly when some walked directory holds a file, and otherwise yields no paths |
| DataPipeline.FilePathsAsWrittenOutcome | optibeam/utils.py:202-207 | over every directory of the list: given types, the as-written traversal returns the filtered walk; given None (what `dirs_from_root` passes by default) it raises TypeError exactly when the walk meets a file, and otherwise returns no paths |
| DataPipeline.DirsFromRootAsWritten | optibeam/datapipeline.py:34-35 | `dirs_from_root` as written, forwarding its types (None by default) to the file walk: given a list of types it returns the filtered walk of the root directories; given None it raises TypeError("'NoneType' object is not iterable") exactly when the walk meets a file, and otherwise returns no paths |
| DataPipeline.DefaultTypesFindEveryWalk | optibeam/datapipeline.py:34-35 | when the walk meets a file, the as-written `dirs_from_root` (which forwards types=None to the file walk) raises TypeError, while the default types [''] yield a non-empty path list |
| DataPipeline.FlattenCrop | optibeam/datapipeline.py:112-113 | for pairs, the flat tuple has twice as many items, and items 2k and 2k+1 are the two coordinates of pair k |
| DataPipeline.FlattenCornersIsBox | optibeam/datapipeline.py:112-115 | ((x1,y1),(x2,y2)) flattens to (x1,y1,x2,y2), PIL's (left, upper, right, lower) |
| DataPipeline.SamplesAppend | optibeam/datapipeline.py:108-119 | the crops of two row runs are the crops of each run concatenated |
| DataPipeline.RepeatAt | optibeam/datapipeline.py:107-108 | every pass of the outer loop replays the frame from its first row in order |
| DataPipeline.YieldSize | optibeam/datapipeline.py:123 | a batch holds batch_size rows when batch_size >= 1, and exactly 1 when batch_size < 1 |
| DataPipeline.PairBatchGenerator.constructor | optibeam/datapipeline.py:101-106 | empty buffers, nothing read and nothing yielded |
| DataPipeline.PairBatchGenerator.AdvanceRow | optibeam/datapipeline.py:107-108 | the next row read is the next row of the frame, wrapping to the first row after the last |
| DataPipeline.PairBatchGenerator.Step | optibeam/datapipeline.py:105-129 | reads the next row (an empty frame changes nothing); in batch mode never yields a single pair and yields exactly when the buffer reaches batch_size, a batch of YieldSize(batch_size) x and y samples paired row by row, then empties the buffers; otherwise yields one (x, y) pair per row in frame order; what was yielded plus what is buffered is always the crops of the rows read, a prefix of the frame repeated |

## Left out

- `timeout`, `process_list_in_parallel`, `apply_multiprocessing` and `apply_multiprocess` are left out. They are threads, process pools and wall-clock timing, and their ordering comes from the library.
- `add_progress_bar`, `print_underscore`, `deprecated` and `deprecated_class` are left out. They only print, show progress or warn.
- `os.walk`, `os.path.join`/`abspath`, `Image.open`, `tf.io.read_file`/`decode_jpeg`, the database query and the `ast.literal_eval` parsing are left out. They are file, database or parser I/O. In the model they are the parameters `walk`, `pathOf`, `decode`, `sqlSelect` and `load`, and crop positions arrive already parsed.
- The "Found N files." print in `get_all_file_paths` and the `tf.print` warning in `preprocess_image` are left out. They are console output.
- Floating-point numerics are left out:
  - `minmax_normalization`, `image_normalize`, `scale_image` and `fast_preprocess`;
  - the division by 255 in `data_pipeline`;
  - the float branch of `apply_threshold`;
  - the channel mean of `rgb_to_grayscale`;
  - the aspect-ratio width, `cv2.resize` and `np.hstack` in `join_images`.
- `JoinTargetHeight` models only the target height and error checks of `join_images`, not the resized and joined image.
- The OpenCV window, drawing and ESC loop of the region selectors are left out. They are UI. The `int(x / scale_factor)` conversion is taken with scale factor 1, so clicks arrive as integers.
- `read_narray_image`, `ImageLoader` and `get_directory` are left out. The first two are image I/O. `get_directory` only returns a field.
- `is_jupyter` and `get_system_info` are left out. They probe the environment.
- `DataLoaderTF.regression`, `DataLoaderTF.reconstruction` and `DataPipeline.create_tf_dataset` are left out:
  - `regression` is empty;
  - the other two are wrappers over `tf.data`;
  - `reconstruction` calls a method that does not exist;
  - `create_tf_dataset` passes a keyword `data_pipeline` does not accept.
- The commented-out HDF5 writer in optibeam/processing.py is not live code and is not part of this model.
- examples/machine_learning/temp.py and tests/unit_tests/test_patterns_gen.py are a training script and a plotting loop. They are not part of this model.
- `@tf.function` tracing of `preprocess_image` is not modelled. The model runs the loop eagerly over a list.
- `PresetKwargs` does not model the order of keys in the merged dict. Dafny maps have no order.
- `SubtractMinimum` takes the elements as unbounded integers. It does not model NumPy's fixed-width dtypes: when max - min exceeds the range of a signed dtype, the source wraps around and can give negative outputs.
- `DataLoaderTF.Length` does not model `len()` raising when `__len__` returns a negative number, which happens for a negative batch size. The model returns the negative floor quotient.
- `PairBatchGenerator.Step` does not model the hang over an empty frame: the source's `while True` around an empty row loop never returns from `next()`, while here a step over an empty frame returns Nothing and changes nothing.
- `PairBatchGenerator.Step` does not model the NumPy stacking and reshaping of samples. A sample is whatever `load` returns, and a batch is the list of samples.

## Findings

| source | as written | input that shows it | evidently intended | confidence | as-written member | corrected member |
|---|---|---|---|---|---|---|
| optibeam/datapipeline.py:34-35 | `dirs_from_root` defaults `types=None` and passes it on, so `get_all_file_paths` evaluates `any(type in file for type in None)` (optibeam/utils.py:205) and raises TypeError | `dirs_from_root(root)` on a directory holding at least one file | an omitted `types` keeps every file, like `get_all_file_paths`'s own default `['']` | high (not executed) | DataPipeline.DirsFromRootAsWritten, DataPipeline.FilePathsAsWrittenOutcome, DataPipeline.DefaultTypesFindEveryWalk | DataPipeline.DataLoaderTF.DirsFromRoot, Utils.KeptFilesDefault |

=== FILE: datapipeline.dfy ===
/** Model of optibeam/datapipeline.py: the bookkeeping of `DataLoaderTF` (its
    length, the two ways of filling `dirs`, the preprocessing fold) and the old
    `DataPipeline.data_pipeline` generator that pairs crops and groups them in batches. */
module DataPipeline {
  import opened Results
  import opened Utils

  // ---------------------------------------------------------------------------
  // DataLoaderTF

  /** Python's `a // b`: the quotient rounded towards minus infinity, so the
      remainder takes the sign of the divisor. */
  function FloorDiv(a: int, b: int): (q: int)
    requires b != 0
    ensures b > 0 ==> 0 <= a - q * b < b
    ensures b < 0 ==> b < a - q * b <= 0
  {
    if b > 0 || a % b == 0 then a / b else a / b - 1
  }

  const NoLenMessage: string := "object of type 'NoneType' has no len()"
  const NotIterableMessage: string := "'NoneType' object is not iterable"

  /** An entry of `preprocessing_funcs`: a callable, or any other object, which
      the loader skips. */
  datatype Preprocessor<!I> = Callable(apply: I -> I) | NotCallable

  /** The callable entries, in list order. */
  function Callables<I>(funcs: seq<Preprocessor<I>>): (fs: seq<I -> I>)
    ensures |fs| <= |funcs|
    decreases |funcs|
  {
    if funcs == [] then []
    else
      var last := funcs[|funcs| - 1];
      Callables(funcs[..|funcs| - 1]) + (match last case Callable(f) => [f] case NotCallable => [])
  }

  /** Filtering a concatenation filters each part: the callables keep list order. */
  lemma {:induction false} CallablesAppend<I>(a: seq<Preprocessor<I>>, b: seq<Preprocessor<I>>)
    ensures Callables(a + b) == Callables(a) + Callables(b)
    decreases |b|
  {
    if b != [] {
      var n := |b| - 1;
      assert (a + b)[..|a + b| - 1] == a + b[..n];
      CallablesAppend(a, b[..n]);
    } else {
      assert a + b == a;
    }
  }

  /** A callable entry contributes its function, any other entry nothing. */
  lemma CallablesSingle<I>(f: I -> I)
    ensures Callables([Callable(f)]) == [f]
    ensures Callables<I>([NotCallable]) == []
  {
  }

  class DataLoaderTF {
    var dirs: Option<seq<string>>
    var batchSize: Option<int>

    /** `__init__`: the given paths, and no batch size. */
    constructor (dirs: Option<seq<string>> := None)
      ensures this.dirs == dirs && batchSize == None
    {
      this.dirs := dirs;
      batchSize := None;
    }

    /** `__len__`: the number of whole batches when a nonzero batch size is set,
        otherwise the number of paths; `len(None)` raises. */
    function Length(): (r: Result<int, Exception>)
      reads this
      ensures dirs.None? ==> r == Err(TypeError(NoLenMessage))
      ensures dirs.Some? && (batchSize.None? || batchSize.value == 0) ==> r == Ok(|dirs.value|)
      ensures dirs.Some? && batchSize.Some? && batchSize.value > 0 ==>
        r.Ok? && 0 <= |dirs.value| - r.value * batchSize.value < batchSize.value
      ensures dirs.Some? && batchSize.Some? && batchSize.value < 0 ==>
        r.Ok? && batchSize.value < |dirs.value| - r.value * batchSize.value <= 0
    {
      match dirs
      case None => Err(TypeError(NoLenMessage))
      case Some(ds) =>
        match batchSize
        case Some(b) => if b != 0 then Ok(FloorDiv(|ds|, b)) else Ok(|ds|)
        case None => Ok(|ds|)
    }

    /** `dirs_from_sql`: the paths become whatever the database query returns; the
        database is outside the model and given as `sqlSelect`. */
    method DirsFromSql(sqlSelect: Option<string> -> seq<string>, sqlQuery: Option<string> := None)
      modifies this
      ensures dirs == Some(sqlSelect(sqlQuery))
      ensures batchSize == old(batchSize)
    {
      dirs := Some(sqlSelect(sqlQuery));
    }

    /** `dirs_from_root`, with `types=None` read as the file walker's own default
        `['']`: the paths become every walked file whose name matches. */
    method DirsFromRoot(walk: string -> seq<WalkEntry>, pathOf: (string, string) -> string,
                        rootDir: Dirs, types: Option<seq<string>> := None)
      modifies this
      ensures dirs == Some(FilePaths(AsList(rootDir), types.GetOr([""]), walk, pathOf))
      ensures batchSize == old(batchSize)
    {
      var paths := GetAllFilePaths(walk, pathOf, rootDir, types.GetOr([""]));
      dirs := Some(paths);
    }

    /** `preprocess_image`: decodes the file, then applies the callable entries of
        `preprocessing_funcs` in list order and skips the others; None or an empty
        list leaves the decoded image as it is. */
    method PreprocessImage<I(!new)>(decode: string -> I, path: string,
                                    preprocessingFuncs: Option<seq<Preprocessor<I>>>)
      returns (image: I)
      ensures image == ApplyInOrder(Callables(preprocessingFuncs.GetOr([])), decode(path))
      ensures image == CombineFunctions(Callables(preprocessingFuncs.GetOr([])))(decode(path))
      ensures (preprocessingFuncs.None? || preprocessingFuncs == Some([])) ==> image == decode(path)
    {
      image := decode(path);
      if preprocessingFuncs.Some? && preprocessingFuncs.value != [] {
        var funcs := preprocessingFuncs.value;
        for i := 0 to |funcs|
          invariant image == ApplyInOrder(Callables(funcs[..i]), decode(path))
        {
          assert funcs[..i + 1][..i] == funcs[..i];
          match funcs[i]
          case Callable(f) =>
            assert Callables(funcs[..i + 1]) == Callables(funcs[..i]) + [f];
            ApplyInOrderAppend(Callables(funcs[..i]), [f], decode(path));
            image := f(image);
          case NotCallable =>
            assert Callables(funcs[..i + 1]) == Callables(funcs[..i]);
        }
        assert funcs[..|funcs|] == funcs;
      }
      CombineFunctionsAppliesInOrder(Callables(preprocessingFuncs.GetOr([])), decode(path));
    }
  }

  /** Some entry of a walk holds at least one file. */
  predicate EntriesHoldFile(entries: seq<WalkEntry>) {
    exists j :: 0 <= j < |entries| && entries[j].files != []
  }

  /** Some directory of the walk holds at least one file. */
  predicate WalkFindsFile(dirs: seq<string>, walk: string -> seq<WalkEntry>) {
    exists i :: 0 <= i < |dirs| && EntriesHoldFile(walk(dirs[i]))
  }

  // `get_all_file_paths` as `dirs_from_root` calls it, with `types` possibly None.
  // Each level runs in the same order as its counterpart in `Utils` and stops at
  // the first exception.

  /** `any(type in file for type in types)`: iterating over None raises TypeError. */
  function MatchesAnyTypeAsWritten(file: string, types: Option<seq<string>>): Result<bool, Exception> {
    match types
    case None => Err(TypeError(NotIterableMessage))
    case Some(ts) => Ok(MatchesAnyType(file, ts))
  }

  function KeptFilesAsWritten(files: seq<string>, types: Option<seq<string>>): Result<seq<string>, Exception>
    decreases |files|
  {
    if files == [] then Ok([])
    else
      var last := files[|files| - 1];
      match KeptFilesAsWritten(files[..|files| - 1], types)
      case Err(e) => Err(e)
      case Ok(kept) =>
        match MatchesAnyTypeAsWritten(last, types)
        case Err(e) => Err(e)
        case Ok(m) => Ok(kept + (if m then [last] else []))
  }

  function EntryPathsAsWritten(entries: seq<WalkEntry>, types: Option<seq<string>>,
                               pathOf: (string, string) -> string): Result<seq<string>, Exception>
    decreases |entries|
  {
    if entries == [] then Ok([])
    else
      var last := entries[|entries| - 1];
      match EntryPathsAsWritten(entries[..|entries| - 1], types, pathOf)
      case Err(e) => Err(e)
      case Ok(paths) =>
        match KeptFilesAsWritten(last.files, types)
        case Err(e) => Err(e)
        case Ok(kept) => Ok(paths + JoinPaths(last.root, kept, pathOf))
  }

  function FilePathsAsWritten(dirs: seq<string>, types: Option<seq<string>>, walk: string -> seq<WalkEntry>,
                              pathOf: (string, string) -> string): Result<seq<string>, Exception>
    decreases |dirs|
  {
    if dirs == [] then Ok([])
    else
      match FilePathsAsWritten(dirs[..|dirs| - 1], types, walk, pathOf)
      case Err(e) => Err(e)
      case Ok(paths) =>
        match EntryPathsAsWritten(walk(dirs[|dirs| - 1]), types, pathOf)
        case Err(e) => Err(e)
        case Ok(more) => Ok(paths + more)
  }

  /** `dirs_from_root` as written: it forwards `types` unchanged, None included. */
  function DirsFromRootAsWritten(walk: string -> seq<WalkEntry>, pathOf: (string, string) -> string,
                                 rootDir: Dirs, types: Option<seq<string>>): (r: Result<seq<string>, Exception>)
    ensures types.Some? ==> r == Ok(FilePaths(AsList(rootDir), types.value, walk, pathOf))
    ensures types.None? ==>
      r == if WalkFindsFile(AsList(rootDir), walk) then Err(TypeError(NotIterableMessage)) else Ok([])
  {
    FilePathsAsWrittenOutcome(AsList(rootDir), types, walk, pathOf);
    FilePathsAsWritten(AsList(rootDir), types, walk, pathOf)
  }

  /** With a list of types the as-written filter is the filter; with None it
      raises at the first file and returns nothing when there is no file. */
  lemma {:induction false} KeptFilesAsWrittenOutcome(files: seq<string>, types: Option<seq<string>>)
    ensures types.Some? ==> KeptFilesAsWritten(files, types) == Ok(KeptFiles(files, types.value))
    ensures types.None? ==>
      KeptFilesAsWritten(files, types) == if files == [] then Ok([]) else Err(TypeError(NotIterableMessage))
    decreases |files|
  {
    if files != [] {
      KeptFilesAsWrittenOutcome(files[..|files| - 1], types);
    }
  }

  lemma {:induction false} EntryPathsAsWrittenOutcome(entries: seq<WalkEntry>, types: Option<seq<string>>,
                                                      pathOf: (string, string) -> string)
    ensures types.Some? ==> EntryPathsAsWritten(entries, types, pathOf) == Ok(EntryPaths(entries, types.value, pathOf))
    ensures types.None? ==>
      EntryPathsAsWritten(entries, types, pathOf)
        == if EntriesHoldFile(entries) then Err(TypeError(NotIterableMessage)) else Ok([])
    decreases |entries|
  {
    if entries != [] {
      var n := |entries| - 1;
      EntryPathsAsWrittenOutcome(entries[..n], types, pathOf);
      KeptFilesAsWrittenOutcome(entries[n].files, types);
      if types.None? {
        if EntriesHoldFile(entries[..n]) {
          var j :| 0 <= j < n && entries[..n][j].files != [];
          assert entries[j].files != [];
        } else if entries[n].files == [] {
          assert !EntriesHoldFile(entries) by {
            forall j | 0 <= j < |entries| ensures entries[j].files == [] {
              if j < n { assert entries[j] == entries[..n][j]; }
            }
          }
          assert JoinPaths(entries[n].root, [], pathOf) == [];
          assert EntryPathsAsWritten(entries, types, pathOf).value == [];
        }
      }
    }
  }

  /** The as-written `dirs_from_root`: with a list of types it returns the
      filtered walk; with None it raises TypeError exactly when the walk meets a
      file, and otherwise returns no paths. */
  lemma {:induction false} FilePathsAsWrittenOutcome(dirs: seq<string>, types: Option<seq<string>>,
                                                     walk: string -> seq<WalkEntry>, pathOf: (string, string) -> string)
    ensures types.Some? ==> FilePathsAsWritten(dirs, types, walk, pathOf) == Ok(FilePaths(dirs, types.value, walk, pathOf))
    ensures types.None? ==>
      FilePathsAsWritten(dirs, types, walk, pathOf)
        == if WalkFindsFile(dirs, walk) then Err(TypeError(NotIterableMessage)) else Ok([])
    decreases |dirs|
  {
    if dirs != [] {
      var n := |dirs| - 1;
      FilePathsAsWrittenOutcome(dirs[..n], types, walk, pathOf);
      EntryPathsAsWrittenOutcome(walk(dirs[n]), types, pathOf);
      if types.None? {
        if WalkFindsFile(dirs[..n], walk) {
          var i :| 0 <= i < n && EntriesHoldFile(walk(dirs[..n][i]));
          assert EntriesHoldFile(walk(dirs[i]));
        } else if !EntriesHoldFile(walk(dirs[n])) {
          assert !WalkFindsFile(dirs, walk) by {
            forall i | 0 <= i < |dirs| ensures !EntriesHoldFile(walk(dirs[i])) {
              if i < n { assert dirs[i] == dirs[..n][i]; }
            }
          }
          assert FilePathsAsWritten(dirs, types, walk, pathOf).value == [];
        }
      }
    }
  }

  lemma {:induction false} EntryPathsDefaultNonEmpty(entries: seq<WalkEntry>, j: nat, pathOf: (string, string) -> string)
    requires j < |entries| && entries[j].files != []
    ensures EntryPaths(entries, [""], pathOf) != []
    decreases |entries|
  {
    var n := |entries| - 1;
    if j == n {
      KeptFilesDefault(entries[n].files);
    } else {
      EntryPathsDefaultNonEmpty(entries[..n], j, pathOf);
    }
  }

  /** With the default types, a walk that meets any file yields at least one path:
      the call that raises as written returns the walked files once corrected. */
  lemma {:induction false} DefaultTypesFindEveryWalk(dirs: seq<string>, walk: string -> seq<WalkEntry>,
                                                     pathOf: (string, string) -> string)
    requires WalkFindsFile(dirs, walk)
    ensures DirsFromRootAsWritten(walk, pathOf, DirList(dirs), None) == Err(TypeError(NotIterableMessage))
    ensures FilePaths(dirs, [""], walk, pathOf) != []
    decreases |dirs|
  {
    FilePathsAsWrittenOutcome(dirs, None, walk, pathOf);
    var i :| 0 <= i < |dirs| && EntriesHoldFile(walk(dirs[i]));
    var j :| 0 <= j < |walk(dirs[i])| && walk(dirs[i])[j].files != [];
    var n := |dirs| - 1;
    if i == n {
      EntryPathsDefaultNonEmpty(walk(dirs[n]), j, pathOf);
    } else {
      assert dirs[..n][i] == dirs[i];
      DefaultTypesFindEveryWalk(dirs[..n], walk, pathOf);
    }
  }

  // ---------------------------------------------------------------------------
  // DataPipeline.data_pipeline

  /** One row of the metadata frame: the image path and the two crop positions,
      each a tuple of corner tuples as `ast.literal_eval` returns them. */
  datatype Row = Row(imagePath: string, speckleCropPos: seq<seq<int>>, originalCropPos: seq<seq<int>>)

  /** `tuple(item for subtuple in crop for item in subtuple)`. */
  function FlattenCrop(crop: seq<seq<int>>): (box: seq<int>)
    ensures (forall k :: 0 <= k < |crop| ==> |crop[k]| == 2) ==>
      && |box| == 2 * |crop|
      && (forall k :: 0 <= k < |crop| ==> box[2 * k] == crop[k][0] && box[2 * k + 1] == crop[k][1])
    decreases |crop|
  {
    if crop == [] then []
    else
      var rest := FlattenCrop(crop[1..]);
      assert forall k :: 1 <= k < |crop| ==> crop[1..][k - 1] == crop[k];
      crop[0] + rest
  }

  /** The crop position `((x1, y1), (x2, y2))` of a region. */
  function CornerTuples(region: Region): seq<seq<int>> {
    [[region.topLeft.x, region.topLeft.y], [region.bottomRight.x, region.bottomRight.y]]
  }

  /** Flattening a corner pair gives PIL's box `(left, upper, right, lower)`:
      columns from x1 to x2 and rows from y1 to y2, which is the window `Crop`
      slices when the box lies inside the image (outside it PIL pads, it does not clamp). */
  lemma FlattenCornersIsBox(region: Region)
    ensures FlattenCrop(CornerTuples(region))
         == [region.topLeft.x, region.topLeft.y, region.bottomRight.x, region.bottomRight.y]
  {
  }

  /** The input sample of a row: the speckle crop. */
  function SampleX<S>(load: (string, seq<int>) -> S, row: Row): S {
    load(row.imagePath, FlattenCrop(row.speckleCropPos))
  }

  /** The target sample of a row: the original-image crop of the same file. */
  function SampleY<S>(load: (string, seq<int>) -> S, row: Row): S {
    load(row.imagePath, FlattenCrop(row.originalCropPos))
  }

  function SamplesX<S>(load: (string, seq<int>) -> S, rows: seq<Row>): (xs: seq<S>)
    ensures |xs| == |rows|
  {
    seq(|rows|, k requires 0 <= k < |rows| => SampleX(load, rows[k]))
  }

  function SamplesY<S>(load: (string, seq<int>) -> S, rows: seq<Row>): (ys: seq<S>)
    ensures |ys| == |rows|
  {
    seq(|rows|, k requires 0 <= k < |rows| => SampleY(load, rows[k]))
  }

  lemma SamplesAppend<S>(load: (string, seq<int>) -> S, a: seq<Row>, b: seq<Row>)
    ensures SamplesX(load, a + b) == SamplesX(load, a) + SamplesX(load, b)
    ensures SamplesY(load, a + b) == SamplesY(load, a) + SamplesY(load, b)
  {
  }

  lemma SamplesSuffix<S>(load: (string, seq<int>) -> S, rows: seq<Row>, k: nat)
    requires k <= |rows|
    ensures SamplesX(load, rows)[k..] == SamplesX(load, rows[k..])
    ensures SamplesY(load, rows)[k..] == SamplesY(load, rows[k..])
  {
  }

  /** Reading one more row extends "yielded plus buffered" by that row's pair. */
  lemma ExtendStream<S>(load: (string, seq<int>) -> S, ex: seq<S>, bx: seq<S>, ey: seq<S>, bufY: seq<S>,
                        processed: seq<Row>, row: Row)
    requires ex + bx == SamplesX(load, processed) && ey + bufY == SamplesY(load, processed)
    ensures ex + (bx + [SampleX(load, row)]) == SamplesX(load, processed + [row])
    ensures ey + (bufY + [SampleY(load, row)]) == SamplesY(load, processed + [row])
  {
    SamplesAppend(load, processed, [row]);
  }

  /** The buffered samples are those of the rows read since the last yield. */
  lemma BufferIsSuffix<S>(load: (string, seq<int>) -> S, ex: seq<S>, bx: seq<S>, ey: seq<S>, bufY: seq<S>,
                          processed: seq<Row>)
    requires ex + bx == SamplesX(load, processed) && ey + bufY == SamplesY(load, processed)
    requires |ex| == |ey|
    ensures bx == SamplesX(load, processed[|ex|..]) && bufY == SamplesY(load, processed[|ex|..])
  {
    SamplesSuffix(load, processed, |ex|);
    assert bx == (ex + bx)[|ex|..];
    assert bufY == (ey + bufY)[|ey|..];
  }

  /** `rows` concatenated `n` times: what `while True: for row in df` walks through. */
  function Repeat<T>(rows: seq<T>, n: nat): (r: seq<T>)
    ensures |r| == n * |rows|
  {
    if n == 0 then [] else Repeat(rows, n - 1) + rows
  }

  /** Pass p of the repeated frame, read at offset j, is row j: every pass
      replays the frame from its first row in order. */
  lemma {:induction false} RepeatAt<T>(rows: seq<T>, n: nat, p: nat, j: nat)
    requires p < n && j < |rows|
    ensures p * |rows| + j < |Repeat(rows, n)|
    ensures Repeat(rows, n)[p * |rows| + j] == rows[j]
  {
    if p < n - 1 {
      RepeatAt(rows, n - 1, p, j);
    }
  }

  /** How many samples a yielded batch holds: `len(batch_x) >= batch_size` fires at
      `batch_size` rows, or after every row when the batch size is below 1. */
  function YieldSize(batchSize: int): (n: nat)
    ensures n >= 1
    ensures batchSize >= 1 ==> n == batchSize
    ensures batchSize < 1 ==> n == 1
  {
    if batchSize >= 1 then batchSize else 1
  }

  /** What one step of the generator hands to its consumer, if anything. */
  datatype Yielded<S> = Nothing | Pair(x: S, y: S) | Batch(xs: seq<S>, ys: seq<S>)

  /** The generator returned by `data_pipeline`, as an object that advances one
      row per `Step`. Reading, cropping, resizing and reshaping an image is the
      opaque `load`; the scaling by 1/255 is left out. */
  class PairBatchGenerator<S> {
    const df: seq<Row>
    const load: (string, seq<int>) -> S
    const batchSize: int
    const isBatch: bool

    var batchX: seq<S>
    var batchY: seq<S>
    /** Index in `df` of the row the inner `for` loop reaches next. */
    var nextRow: nat

    /** Completed passes over `df`. */
    ghost var passes: nat
    /** Everything yielded so far: the concatenated batches, or the pairs in order. */
    ghost var emittedX: seq<S>
    ghost var emittedY: seq<S>

    /** The rows read so far, in reading order. */
    ghost function Processed(): seq<Row>
      reads this
      requires nextRow <= |df|
    {
      Repeat(df, passes) + df[..nextRow]
    }

    /** The rows read so far are a prefix of `df` repeated; what was yielded plus
        what is buffered is exactly their x crops and, position by position, their
        y crops; the buffers stay below one batch (empty outside batch mode). */
    ghost predicate Valid()
      reads this
    {
      && nextRow <= |df|
      && (df != [] ==> nextRow < |df|)
      && emittedX + batchX == SamplesX(load, Processed())
      && emittedY + batchY == SamplesY(load, Processed())
      && |batchX| == |batchY|
      && (if isBatch then |batchX| < YieldSize(batchSize) else batchX == [])
    }

    /** `DataPipeline(df, shape).data_pipeline(dim, batch_size, is_batch)`, with
        `dim` folded into `load`. */
    constructor (df: seq<Row>, load: (string, seq<int>) -> S, batchSize: int := 1, isBatch: bool := true)
      ensures Valid()
      ensures this.df == df && this.load == load && this.batchSize == batchSize && this.isBatch == isBatch
      ensures batchX == [] && batchY == [] && emittedX == [] && emittedY == [] && Processed() == []
    {
      this.df := df;
      this.load := load;
      this.batchSize := batchSize;
      this.isBatch := isBatch;
      batchX, batchY := [], [];
      nextRow := 0;
      passes := 0;
      emittedX, emittedY := [], [];
    }

    /** Moves the inner loop to the next row of `df`, starting a new pass after
        the last row. */
    method AdvanceRow()
      requires df != [] && nextRow < |df|
      modifies this
      ensures nextRow < |df|
      ensures Processed() == old(Processed()) + [df[old(nextRow)]]
      ensures batchX == old(batchX) && batchY == old(batchY)
      ensures emittedX == old(emittedX) && emittedY == old(emittedY)
    {
      assert df[..nextRow + 1] == df[..nextRow] + [df[nextRow]];
      if nextRow + 1 == |df| {
        nextRow := 0;
        passes := passes + 1;
        assert df[..|df|] == df;
      } else {
        nextRow := nextRow + 1;
      }
    }

    /** One iteration of the inner loop: read the next row of `df` (starting a new
        pass after the last one) and either yield its pair, or buffer it and yield
        the buffers once they hold a batch. Over an empty frame the source's outer
        loop spins without yielding; a step then changes nothing. */
    method Step() returns (out: Yielded<S>)
      requires Valid()
      modifies this
      ensures Valid()
      ensures df == [] ==> out == Nothing && batchX == old(batchX) && batchY == old(batchY)
                           && emittedX == old(emittedX) && emittedY == old(emittedY)
      ensures df != [] ==> Processed() == old(Processed()) + [df[old(nextRow)]]
      ensures df != [] && !isBatch ==>
        out == Pair(SampleX(load, df[old(nextRow)]), SampleY(load, df[old(nextRow)]))
      ensures isBatch ==> out.Batch? || out.Nothing?
      ensures df != [] && isBatch ==> (out.Batch? <==> |old(batchX)| + 1 >= batchSize)
      ensures out.Batch? ==>
        && |out.xs| == YieldSize(batchSize) && |out.ys| == YieldSize(batchSize)
        && batchX == [] && batchY == []
        && out.xs == SamplesX(load, Processed()[|old(emittedX)|..])
        && out.ys == SamplesY(load, Processed()[|old(emittedX)|..])
      ensures out.Batch? ==> emittedX == old(emittedX) + out.xs && emittedY == old(emittedY) + out.ys
      ensures out.Pair? ==> emittedX == old(emittedX) + [out.x] && emittedY == old(emittedY) + [out.y]
      ensures out.Nothing? ==> emittedX == old(emittedX) && emittedY == old(emittedY)
    {
      if df == [] {
        out := Nothing;
        return;
      }
      ghost var before := Processed();
      var row := df[nextRow];
      var resX := load(row.imagePath, FlattenCrop(row.speckleCropPos));
      var resY := load(row.imagePath, FlattenCrop(row.originalCropPos));
      AdvanceRow();
      ExtendStream(load, emittedX, batchX, emittedY, batchY, before, row);
      if isBatch {
        batchX := batchX + [resX];
        batchY := batchY + [resY];
        if |batchX| >= batchSize {
          BufferIsSuffix(load, emittedX, batchX, emittedY, batchY, Processed());
          out := Batch(batchX, batchY);
          emittedX := emittedX + batchX;
          emittedY := emittedY + batchY;
          batchX, batchY := [], [];
        } else {
          out := Nothing;
        }
      } else {
        out := Pair(resX, resY);
        emittedX := emittedX + [resX];
        emittedY := emittedY + [resY];
      }
    }
  }
}

=== FILE: processing.dfy ===
/** Model of optibeam/processing.py: cropping from clicked corner pairs, the two
    interactive region selectors reduced to their mouse-click state machines, and
    the integer path of `apply_threshold`. */
module Processing {
  import opened Utils

  /** `crop_images_from_clicks`: one crop per (top_left, bottom_right) pair, in list
      order, cut with the same NumPy slice as `crop_images`. */
  method CropImagesFromClicks<T>(clickList: seq<Region>, image: Image<T>) returns (croppedImages: seq<Image<T>>)
    ensures |croppedImages| == |clickList|
    ensures forall i :: 0 <= i < |clickList| ==> croppedImages[i] == Crop(image, clickList[i])
  {
    croppedImages := [];
    var i := 0;
    while i < |clickList|
      invariant 0 <= i <= |clickList|
      invariant |croppedImages| == i
      invariant forall k :: 0 <= k < i ==> croppedImages[k] == Crop(image, clickList[k])
    {
      var topLeft := clickList[i].topLeft;
      var bottomRight := clickList[i].bottomRight;
      croppedImages := croppedImages + [Crop(image, Region(topLeft, bottomRight))];
      i := i + 1;
    }
  }

  // ---------------------------------------------------------------------------
  // Clamping to the image

  /** `max(0, min(v, hi))`. */
  function Clamp(v: int, hi: nat): (c: int)
    ensures 0 <= c <= hi
    ensures 0 <= v <= hi ==> c == v
    ensures v < 0 ==> c == 0
    ensures v > hi ==> c == hi
  {
    if v < 0 then 0 else if v > hi then hi else v
  }

  /** The point lies in [0, maxX] x [0, maxY]: the bounds are inclusive, so a
      clamped corner can sit on the right or bottom edge and still be a slice end. */
  predicate InBounds(p: Point, maxX: nat, maxY: nat) {
    0 <= p.x <= maxX && 0 <= p.y <= maxY
  }

  /** A corner clamped coordinate-wise into the image: each coordinate is clamped
      on its own, so a corner outside on one axis keeps its other coordinate. */
  function ClampPoint(p: Point, maxX: nat, maxY: nat): (q: Point)
    ensures InBounds(q, maxX, maxY)
    ensures InBounds(p, maxX, maxY) ==> q == p
    ensures q.x == Clamp(p.x, maxX) && q.y == Clamp(p.y, maxY)
  {
    Point(Clamp(p.x, maxX), Clamp(p.y, maxY))
  }

  /** Clamping keeps the order of two coordinates. */
  lemma ClampMonotone(a: int, b: int, hi: nat)
    requires a <= b
    ensures Clamp(a, hi) <= Clamp(b, hi)
  {
  }

  /** `cv2.EVENT_LBUTTONDOWN`; every other mouse event leaves the selection alone. */
  const EventLButtonDown: int := 1

  // ---------------------------------------------------------------------------
  // select_crop_areas_corner: the mouse-click handler

  /** The state the corner selector's click handler keeps: clicked points and the
      rectangles formed from each completed pair of clicks. */
  class CornerSelector {
    const num: int
    const maxX: nat
    const maxY: nat
    var points: seq<Point>
    var rectangles: seq<Region>

    /** Every completed pair of points is a rectangle of clamped corners; at most
        `2 * num` points are kept (one point when `num` allows no rectangle). */
    ghost predicate Valid()
      reads this
    {
      && |rectangles| == |points| / 2
      && (forall k :: 0 <= k < |rectangles| ==> rectangles[k] == Region(points[2 * k], points[2 * k + 1]))
      && (forall k :: 0 <= k < |rectangles| ==>
            InBounds(rectangles[k].topLeft, maxX, maxY) && InBounds(rectangles[k].bottomRight, maxX, maxY))
      && |points| <= (if num >= 1 then 2 * num else 1)
    }

    /** The selector over an image of `original_image.shape[1]` columns and
        `original_image.shape[0]` rows, asking for `num` rectangles. */
    constructor (imageWidth: nat, imageHeight: nat, num: int)
      ensures Valid()
      ensures this.num == num && maxX == imageWidth && maxY == imageHeight
      ensures points == [] && rectangles == []
    {
      this.num := num;
      maxX, maxY := imageWidth, imageHeight;
      points, rectangles := [], [];
    }

    /** `mouse_click`: a left-button click first clears a complete selection, then
        records the point; every second point closes a rectangle whose two corners
        are clamped into the image, both in `points` and in the new rectangle. */
    method MouseClick(event: int, x: int, y: int)
      requires Valid()
      modifies this
      ensures Valid()
      ensures event != EventLButtonDown ==> points == old(points) && rectangles == old(rectangles)
      ensures event == EventLButtonDown ==>
        var reset := |old(points)| >= 2 * num;
        var keptPoints := if reset then [] else old(points);
        var keptRects := if reset then [] else old(rectangles);
        if |keptPoints| % 2 == 0 then
          points == keptPoints + [Point(x, y)] && rectangles == keptRects
        else
          var first := ClampPoint(keptPoints[|keptPoints| - 1], maxX, maxY);
          var second := ClampPoint(Point(x, y), maxX, maxY);
          && points == keptPoints[..|keptPoints| - 1] + [first, second]
          && rectangles == keptRects + [Region(first, second)]
      ensures event == EventLButtonDown ==> 1 <= |points|
      ensures event == EventLButtonDown && num >= 1 ==> |points| <= 2 * num && |rectangles| <= num
    {
      if event == EventLButtonDown {
        if |points| >= 2 * num {
          points := [];
          rectangles := [];
        }
        points := points + [Point(x, y)];
        if |points| % 2 == 0 {
          var n := |points|;
          points := points[n - 2 := ClampPoint(points[n - 2], maxX, maxY)];
          points := points[n - 1 := ClampPoint(points[n - 1], maxX, maxY)];
          rectangles := rectangles + [Region(points[n - 2], points[n - 1])];
        }
      }
    }
  }

  // ---------------------------------------------------------------------------
  // select_crop_areas_center: the mouse-click handler

  /** The square centred on `center` whose edge passes through `edgePoint`, before
      clamping: half-side `max(|dx|, |dy|)` on each side of the centre. */
  function SquareAround(center: Point, edgePoint: Point): (square: Region)
    ensures var tl, br := square.topLeft, square.bottomRight;
      && br.x - tl.x == br.y - tl.y >= 0
      && tl.x + br.x == 2 * center.x && tl.y + br.y == 2 * center.y
      && tl.x <= edgePoint.x <= br.x && tl.y <= edgePoint.y <= br.y
      && (edgePoint.x == tl.x || edgePoint.x == br.x || edgePoint.y == tl.y || edgePoint.y == br.y)
  {
    var dx := if edgePoint.x >= center.x then edgePoint.x - center.x else center.x - edgePoint.x;
    var dy := if edgePoint.y >= center.y then edgePoint.y - center.y else center.y - edgePoint.y;
    var side := if dx >= dy then dx else dy;
    Region(Point(center.x - side, center.y - side), Point(center.x + side, center.y + side))
  }

  /** The square of the centre selector after its corners are clamped into the image. */
  function ClampedSquare(center: Point, edgePoint: Point, maxX: nat, maxY: nat): (square: Region)
    ensures InBounds(square.topLeft, maxX, maxY) && InBounds(square.bottomRight, maxX, maxY)
    ensures square.topLeft.x <= square.bottomRight.x && square.topLeft.y <= square.bottomRight.y
    ensures var raw := SquareAround(center, edgePoint);
      InBounds(raw.topLeft, maxX, maxY) && InBounds(raw.bottomRight, maxX, maxY) ==> square == raw
    ensures var raw := SquareAround(center, edgePoint);
      && square.topLeft == ClampPoint(raw.topLeft, maxX, maxY)
      && square.bottomRight == ClampPoint(raw.bottomRight, maxX, maxY)
  {
    var raw := SquareAround(center, edgePoint);
    ClampMonotone(raw.topLeft.x, raw.bottomRight.x, maxX);
    ClampMonotone(raw.topLeft.y, raw.bottomRight.y, maxY);
    Region(ClampPoint(raw.topLeft, maxX, maxY), ClampPoint(raw.bottomRight, maxX, maxY))
  }

  /** The state the centre selector's click handler keeps. Unlike the corner
      selector it leaves the clicked points as they were and clamps only the square. */
  class CenterSelector {
    const num: int
    const maxX: nat
    const maxY: nat
    var points: seq<Point>
    var squares: seq<Region>

    /** Square k is built from click 2k (the centre) and click 2k+1 (the edge). */
    ghost predicate Valid()
      reads this
    {
      && |squares| == |points| / 2
      && (forall k :: 0 <= k < |squares| ==> squares[k] == ClampedSquare(points[2 * k], points[2 * k + 1], maxX, maxY))
      && |points| <= (if num >= 1 then 2 * num else 1)
    }

    constructor (imageWidth: nat, imageHeight: nat, num: int)
      ensures Valid()
      ensures this.num == num && maxX == imageWidth && maxY == imageHeight
      ensures points == [] && squares == []
    {
      this.num := num;
      maxX, maxY := imageWidth, imageHeight;
      points, squares := [], [];
    }

    /** `mouse_click`: a left-button click first clears a complete selection, then
        records the point; every second point closes a square around the previous one. */
    method MouseClick(event: int, x: int, y: int)
      requires Valid()
      modifies this
      ensures Valid()
      ensures event != EventLButtonDown ==> points == old(points) && squares == old(squares)
      ensures event == EventLButtonDown ==>
        var reset := |old(points)| >= 2 * num;
        var keptPoints := if reset then [] else old(points);
        var keptSquares := if reset then [] else old(squares);
        && points == keptPoints + [Point(x, y)]
        && squares == keptSquares +
             (if |points| % 2 == 0 then [ClampedSquare(keptPoints[|keptPoints| - 1], Point(x, y), maxX, maxY)] else [])
      ensures event == EventLButtonDown ==> 1 <= |points|
      ensures event == EventLButtonDown && num >= 1 ==> |points| <= 2 * num && |squares| <= num
    {
      if event == EventLButtonDown {
        if |points| >= 2 * num {
          points := [];
          squares := [];
        }
        points := points + [Point(x, y)];
        if |points| % 2 == 0 {
          var center := points[|points| - 2];
          var edgePoint := points[|points| - 1];
          squares := squares + [ClampedSquare(center, edgePoint, maxX, maxY)];
        }
      }
    }
  }

  // ---------------------------------------------------------------------------
  // apply_threshold (integer images)

  const DefaultThreshold: int := 5

  /** `np.where(image >= threshold, image, 0)` on an integer image: the shape is
      kept, a pixel at or above the threshold is kept, every other pixel becomes 0. */
  function ApplyThreshold(image: NdArray, threshold: int := DefaultThreshold): (out: NdArray)
    ensures out.shape == image.shape && |out.data| == |image.data|
    ensures forall i :: 0 <= i < |image.data| && image.data[i] >= threshold ==> out.data[i] == image.data[i]
    ensures forall i :: 0 <= i < |image.data| && image.data[i] < threshold ==> out.data[i] == 0
  {
    NdArray(image.shape, seq(|image.data|, i requires 0 <= i < |image.data| =>
      if image.data[i] >= threshold then image.data[i] else 0))
  }

  /** Every pixel that survives the threshold is at least the threshold, and it is
      the input pixel. */
  lemma ThresholdSurvivors(image: NdArray, threshold: int, i: nat)
    requires i < |image.data|
    ensures var out := ApplyThreshold(image, threshold);
      out.data[i] != 0 ==> out.data[i] >= threshold && out.data[i] == image.data[i]
  {
  }

  /** Thresholding twice with the same threshold is thresholding once. */
  lemma ThresholdIdempotent(image: NdArray, threshold: int)
    ensures ApplyThreshold(ApplyThreshold(image, threshold), threshold) == ApplyThreshold(image, threshold)
  {
    var once := ApplyThreshold(image, threshold);
    var twice := ApplyThreshold(once, threshold);
    assert twice.data == once.data;
  }
}

=== FILE: results.dfy ===
/** Optional values, results and the Python exceptions the modelled code raises. */
module Results {

  datatype Option<+T> = None | Some(value: T) {
    /** The wrapped value, or `default` when there is none. */
    function GetOr(default: T): T {
      match this
      case Some(v) => v
      case None => default
    }
  }

  /** A value, or the exception the Python code would raise instead. */
  datatype Result<+T, +E> = Ok(value: T) | Err(error: E)

  /** The built-in Python exceptions raised by the modelled code, with their messages. */
  datatype Exception =
    | ValueError(message: string)
    | TypeError(message: string)
    | IndexError(message: string)
}

=== FILE: utils.dfy ===
/** Model of optibeam/utils.py: left-to-right function composition, keyword presetting,
    cropping by NumPy slicing, the file-name filter of the directory walk, and the
    integer array helpers `subtract_minimum` and the height rule of `join_images`. */
module Utils {
  import opened Results

  // ---------------------------------------------------------------------------
  // combine_functions

  /** Reference meaning of a pipeline: apply fs[0] first, then fs[1], and so on. */
  function ApplyInOrder<T>(fs: seq<T -> T>, x: T): T
    decreases |fs|
  {
    if fs == [] then x else ApplyInOrder(fs[1..], fs[0](x))
  }

  /** `reduce(lambda f, g: lambda x: g(f(x)), rest, acc)`: folds the remaining
      functions into the accumulated one, each new function running after it. */
  function Reduce<T>(acc: T -> T, rest: seq<T -> T>): T -> T
    decreases |rest|
  {
    if rest == [] then acc
    else
      var g := rest[0];
      Reduce(x => g(acc(x)), rest[1..])
  }

  /** `combine_functions`: the identity for an empty list, otherwise a reduce that
      starts from the first function, so a one-element list yields that function itself. */
  function CombineFunctions<T(!new)>(functions: seq<T -> T>): (combined: T -> T)
    ensures functions == [] ==> forall x :: combined(x) == x
    ensures |functions| == 1 ==> combined == functions[0]
  {
    if functions == [] then x => x
    else Reduce(functions[0], functions[1..])
  }

  lemma {:induction false} ReduceAppliesInOrder<T>(acc: T -> T, rest: seq<T -> T>, x: T)
    ensures Reduce(acc, rest)(x) == ApplyInOrder(rest, acc(x))
    decreases |rest|
  {
    if rest != [] {
      var g := rest[0];
      var next := (y: T) => g(acc(y));
      ReduceAppliesInOrder(next, rest[1..], x);
    }
  }

  /** The combined function runs the list left to right: fn(...f2(f1(x))). */
  lemma CombineFunctionsAppliesInOrder<T(!new)>(functions: seq<T -> T>, x: T)
    ensures CombineFunctions(functions)(x) == ApplyInOrder(functions, x)
  {
    if functions != [] {
      ReduceAppliesInOrder(functions[0], functions[1..], x);
    }
  }

  lemma {:induction false} ApplyInOrderAppend<T>(fs: seq<T -> T>, gs: seq<T -> T>, x: T)
    ensures ApplyInOrder(fs + gs, x) == ApplyInOrder(gs, ApplyInOrder(fs, x))
    decreases |fs|
  {
    if fs == [] {
      assert fs + gs == gs;
    } else {
      assert (fs + gs)[1..] == fs[1..] + gs;
      ApplyInOrderAppend(fs[1..], gs, fs[0](x));
    }
  }

  /** Combining a concatenation is running the first pipeline, then the second. */
  lemma CombineFunctionsConcat<T(!new)>(fs: seq<T -> T>, gs: seq<T -> T>, x: T)
    ensures CombineFunctions(fs + gs)(x) == CombineFunctions(gs)(CombineFunctions(fs)(x))
  {
    CombineFunctionsAppliesInOrder(fs + gs, x);
    CombineFunctionsAppliesInOrder(fs, x);
    CombineFunctionsAppliesInOrder(gs, ApplyInOrder(fs, x));
    ApplyInOrderAppend(fs, gs, x);
  }

  // ---------------------------------------------------------------------------
  // preset_kwargs

  /** `{**preset_kwargs, **kwargs}`: every key of either dictionary; a key passed
      by the caller overrides the preset, a preset fills a key the caller left out. */
  function MergeKwargs<V>(preset: map<string, V>, passed: map<string, V>): (merged: map<string, V>)
    ensures merged.Keys == preset.Keys + passed.Keys
    ensures forall k :: k in passed ==> merged[k] == passed[k]
    ensures forall k :: k in preset && k !in passed ==> merged[k] == preset[k]
  {
    preset + passed
  }

  /** The wrapper `preset_kwargs(**preset)` puts around `func`: positional arguments
      are passed through, keyword arguments are merged over the presets. */
  function PresetKwargs<A(!new), V(!new), R>(preset: map<string, V>, func: (seq<A>, map<string, V>) -> R)
    : (wrapper: (seq<A>, map<string, V>) -> R)
    ensures forall args: seq<A> :: wrapper(args, map[]) == func(args, preset)
    ensures forall args: seq<A>, kwargs: map<string, V> ::
      kwargs.Keys >= preset.Keys ==> wrapper(args, kwargs) == func(args, kwargs)
  {
    MergeOverridingAll(preset);
    (args, kwargs) => func(args, MergeKwargs(preset, kwargs))
  }

  /** Merging nothing over the presets gives the presets; passing every preset
      key overrides all of them. */
  lemma MergeOverridingAll<V(!new)>(preset: map<string, V>)
    ensures MergeKwargs(preset, map[]) == preset
    ensures forall kwargs: map<string, V> :: kwargs.Keys >= preset.Keys ==> MergeKwargs(preset, kwargs) == kwargs
  {
  }

  /** A call through the wrapper reaches `func` with the same positional arguments,
      every key the caller passed with the caller's value, and the presets elsewhere. */
  lemma PresetKwargsCall<A(!new), V(!new), R>(preset: map<string, V>, func: (seq<A>, map<string, V>) -> R,
                                  args: seq<A>, kwargs: map<string, V>)
    ensures exists merged: map<string, V> ::
      && PresetKwargs(preset, func)(args, kwargs) == func(args, merged)
      && merged.Keys == preset.Keys + kwargs.Keys
      && (forall k :: k in kwargs ==> merged[k] == kwargs[k])
      && (forall k :: k in preset && k !in kwargs ==> merged[k] == preset[k])
  {
    var merged := MergeKwargs(preset, kwargs);
    assert PresetKwargs(preset, func)(args, kwargs) == func(args, merged);
  }

  /** Stacking two presetting decorators: the outer presets override the inner ones. */
  lemma PresetKwargsStacked<A(!new), V(!new), R>(outer: map<string, V>, inner: map<string, V>,
                                     func: (seq<A>, map<string, V>) -> R,
                                     args: seq<A>, kwargs: map<string, V>)
    ensures PresetKwargs(outer, PresetKwargs(inner, func))(args, kwargs)
         == PresetKwargs(MergeKwargs(inner, outer), func)(args, kwargs)
  {
    assert MergeKwargs(inner, MergeKwargs(outer, kwargs)) == MergeKwargs(MergeKwargs(inner, outer), kwargs);
  }

  // ---------------------------------------------------------------------------
  // crop_images: NumPy slicing of a row-major grid

  datatype Point = Point(x: int, y: int)

  /** A crop region `(top_left, bottom_right)` in (x, y) = (column, row) coordinates. */
  datatype Region = Region(topLeft: Point, bottomRight: Point)

  /** An image as a sequence of rows; a pixel may itself hold several channels. */
  type Image<T> = seq<seq<T>>

  function Width<T>(image: Image<T>): nat {
    if image == [] then 0 else |image[0]|
  }

  /** Every row has the same length, as in a NumPy array. */
  predicate IsGrid<T>(image: Image<T>) {
    forall r :: 0 <= r < |image| ==> |image[r]| == Width(image)
  }

  /** Python's adjustment of one slice bound against a sequence of length n:
      a negative bound counts from the end, and the result is clamped to [0, n]. */
  function SliceBound(i: int, n: nat): (b: nat)
    ensures b <= n
    ensures 0 <= i <= n ==> b == i
    ensures 0 <= i + n && i < 0 ==> b == i + n
    ensures i + n < 0 ==> b == 0
    ensures i > n ==> b == n
  {
    if i < 0 then (if i + n < 0 then 0 else i + n)
    else if i > n then n
    else i
  }

  /** `s[start:stop]` with Python's semantics: never an error, empty when the
      adjusted start is not below the adjusted stop. */
  function PySlice<T>(s: seq<T>, start: int, stop: int): (r: seq<T>)
    ensures |r| <= |s|
    ensures 0 <= start <= stop <= |s| ==> r == s[start..stop]
    ensures 0 <= stop <= start ==> r == []
    ensures var lo, hi := SliceBound(start, |s|), SliceBound(stop, |s|);
      && |r| == (if lo < hi then hi - lo else 0)
      && forall k :: 0 <= k < |r| ==> r[k] == s[lo + k]
  {
    var lo, hi := SliceBound(start, |s|), SliceBound(stop, |s|);
    if lo < hi then s[lo..hi] else []
  }

  /** `image[top_left[1]:bottom_right[1], top_left[0]:bottom_right[0]]`. */
  function Crop<T>(image: Image<T>, region: Region): (crop: Image<T>)
    ensures |crop| <= |image|
    ensures var tl, br := region.topLeft, region.bottomRight;
      IsGrid(image) && 0 <= tl.x <= br.x <= Width(image) && 0 <= tl.y <= br.y <= |image| ==>
        && |crop| == br.y - tl.y
        && forall r :: 0 <= r < |crop| ==>
             && |crop[r]| == br.x - tl.x
             && forall c :: 0 <= c < |crop[r]| ==> crop[r][c] == image[tl.y + r][tl.x + c]
    ensures 0 <= region.bottomRight.y <= region.topLeft.y ==> crop == []
    ensures 0 <= region.bottomRight.x <= region.topLeft.x ==> forall r :: 0 <= r < |crop| ==> crop[r] == []
  {
    var rows := PySlice(image, region.topLeft.y, region.bottomRight.y);
    seq(|rows|, r requires 0 <= r < |rows| => PySlice(rows[r], region.topLeft.x, region.bottomRight.x))
  }

  /** `crop_images`: one crop per region, in region order. */
  method CropImages<T>(image: Image<T>, regions: seq<Region>) returns (croppedImages: seq<Image<T>>)
    ensures |croppedImages| == |regions|
    ensures forall k :: 0 <= k < |regions| ==> croppedImages[k] == Crop(image, regions[k])
  {
    croppedImages := [];
    for i := 0 to |regions|
      invariant |croppedImages| == i
      invariant forall k :: 0 <= k < i ==> croppedImages[k] == Crop(image, regions[k])
    {
      var region := regions[i];
      croppedImages := croppedImages + [Crop(image, region)];
    }
  }

  // ---------------------------------------------------------------------------
  // Integer NumPy arrays: join_images (height rule) and subtract_minimum

  /** A NumPy integer array: its shape and its elements in row-major order. The
      model takes a value of this type to stand for an array only when `|data|` is
      the product of `shape`; the operations below read the number of axes from
      `shape` and the elements (and so emptiness) from `data`. */
  datatype NdArray = NdArray(shape: seq<nat>, data: seq<int>)

  /** `img.shape[0]` of every image, or None when some array has no axis at all. */
  function Heights(images: seq<NdArray>): (hs: Option<seq<nat>>)
    ensures hs.Some? <==> forall k :: 0 <= k < |images| ==> |images[k].shape| >= 1
    ensures hs.Some? ==> |hs.value| == |images|
    ensures hs.Some? ==> forall k :: 0 <= k < |images| ==> hs.value[k] == images[k].shape[0]
    decreases |images|
  {
    if images == [] then Some([])
    else if |images[0].shape| == 0 then None
    else
      match Heights(images[1..])
      case None => None
      case Some(rest) => Some([images[0].shape[0]] + rest)
  }

  function MaxOf(s: seq<nat>): (m: nat)
    requires s != []
    ensures m in s
    ensures forall k :: 0 <= k < |s| ==> s[k] <= m
    decreases |s|
  {
    if |s| == 1 then s[0]
    else
      var rest := MaxOf(s[1..]);
      if s[0] >= rest then s[0] else rest
  }

  function MinOf(s: seq<int>): (m: int)
    requires s != []
    ensures m in s
    ensures forall k :: 0 <= k < |s| ==> m <= s[k]
    decreases |s|
  {
    if |s| == 1 then s[0]
    else
      var rest := MinOf(s[1..]);
      if s[0] <= rest then s[0] else rest
  }

  const EmptyImageListMessage: string := "image_list cannot be empty"
  const JoinMethodMessage: string := "Method must be 'largest' or 'smallest'"
  const NoAxisMessage: string := "tuple index out of range"

  /** The target height chosen by `join_images` before it resizes: the tallest
      input height for "largest", the shortest for "smallest". The parameter
      `sizing` is the source's `method` argument, a keyword in Dafny. */
  function JoinTargetHeight(imageList: seq<NdArray>, sizing: string := "largest"): (r: Result<nat, Exception>)
    ensures imageList == [] ==> r == Err(ValueError(EmptyImageListMessage))
    ensures imageList != [] && sizing != "largest" && sizing != "smallest" ==>
      r == Err(ValueError(JoinMethodMessage))
    ensures imageList != [] && (sizing == "largest" || sizing == "smallest") ==>
      (r.Ok? <==> forall k :: 0 <= k < |imageList| ==> |imageList[k].shape| >= 1)
    ensures imageList != [] && (sizing == "largest" || sizing == "smallest") && r.Err? ==>
      r == Err(IndexError(NoAxisMessage))
    ensures r.Ok? ==> exists k :: 0 <= k < |imageList| && imageList[k].shape != [] && imageList[k].shape[0] == r.value
    ensures r.Ok? && sizing == "largest" ==>
      forall k :: 0 <= k < |imageList| ==> imageList[k].shape != [] && imageList[k].shape[0] <= r.value
    ensures r.Ok? && sizing == "smallest" ==>
      forall k :: 0 <= k < |imageList| ==> imageList[k].shape != [] && r.value <= imageList[k].shape[0]
  {
    if imageList == [] then Err(ValueError(EmptyImageListMessage))
    else if sizing != "largest" && sizing != "smallest" then Err(ValueError(JoinMethodMessage))
    else
      match Heights(imageList)
      case None => Err(IndexError(NoAxisMessage))
      case Some(hs) =>
        var h := if sizing == "largest" then MaxOf(hs) else MinOf(hs);
        assert exists k :: 0 <= k < |hs| && hs[k] == h;
        Ok(h)
  }

  const OneDimensionalMessage: string := "Input must be a 1D numpy array."
  const EmptyMinimumMessage: string := "zero-size array to reduction operation minimum which has no identity"

  /** `subtract_minimum`: a 1-D array shifted down by its minimum. NumPy raises on
      any other number of axes, and on an empty array, which has no minimum. */
  function SubtractMinimum(arr: NdArray): (r: Result<NdArray, Exception>)
    ensures |arr.shape| != 1 ==> r == Err(ValueError(OneDimensionalMessage))
    ensures |arr.shape| == 1 && arr.data == [] ==> r == Err(ValueError(EmptyMinimumMessage))
    ensures |arr.shape| == 1 && arr.data != [] ==> r.Ok?
    ensures r.Ok? ==> r.value.shape == arr.shape && |r.value.data| == |arr.data|
    ensures r.Ok? ==> exists m :: m in arr.data &&
                        forall i :: 0 <= i < |arr.data| ==> m <= arr.data[i] && r.value.data[i] == arr.data[i] - m
    ensures r.Ok? ==> forall i :: 0 <= i < |r.value.data| ==> r.value.data[i] >= 0
    ensures r.Ok? ==> exists i :: 0 <= i < |r.value.data| && r.value.data[i] == 0
    ensures r.Ok? && (forall i :: 0 <= i < |arr.data| ==> arr.data[i] >= 0) ==>
      forall i :: 0 <= i < |arr.data| ==> 0 <= r.value.data[i] <= arr.data[i]
  {
    if |arr.shape| != 1 then Err(ValueError(OneDimensionalMessage))
    else if arr.data == [] then Err(ValueError(EmptyMinimumMessage))
    else
      var m := MinOf(arr.data);
      var out := seq(|arr.data|, i requires 0 <= i < |arr.data| => arr.data[i] - m);
      var k :| 0 <= k < |arr.data| && arr.data[k] == m;
      assert out[k] == 0;
      Ok(NdArray(arr.shape, out))
  }

  // ---------------------------------------------------------------------------
  // get_all_file_paths: the file-name filter over an abstract directory walk

  /** The `dirs` argument: a single path string or a list of them. */
  datatype Dirs = OneDir(path: string) | DirList(paths: seq<string>)

  /** One `(root, dirnames, filenames)` triple yielded by `os.walk`; the
      sub-directory names are not used by the filter. */
  datatype WalkEntry = WalkEntry(root: string, files: seq<string>)

  /** A single string is treated as a one-element list. */
  function AsList(dirs: Dirs): (list: seq<string>)
    ensures dirs.OneDir? ==> list == [dirs.path]
    ensures dirs.DirList? ==> list == dirs.paths
  {
    match dirs
    case OneDir(p) => [p]
    case DirList(ps) => ps
  }

  /** Python's `sub in s` for strings: `sub` occurs in `s` at some offset. */
  predicate IsSubstring(sub: string, s: string)
    decreases |s|
  {
    sub <= s || (s != [] && IsSubstring(sub, s[1..]))
  }

  /** `any(type in file for type in types)`. */
  predicate MatchesAnyType(file: string, types: seq<string>)
    ensures types == [] ==> !MatchesAnyType(file, types)
    ensures "" in types ==> MatchesAnyType(file, types)
    ensures file in types ==> MatchesAnyType(file, types)
  {
    exists t :: t in types && IsSubstring(t, file)
  }

  /** The names among `files` that the filter keeps, in walk order. */
  function KeptFiles(files: seq<string>, types: seq<string>): (kept: seq<string>)
    ensures forall k :: 0 <= k < |kept| ==> kept[k] in files && MatchesAnyType(kept[k], types)
    decreases |files|
  {
    if files == [] then []
    else
      var last := files[|files| - 1];
      KeptFiles(files[..|files| - 1], types) + (if MatchesAnyType(last, types) then [last] else [])
  }

  /** `os.path.abspath(os.path.join(root, file))` for each kept name. */
  function JoinPaths(root: string, names: seq<string>, pathOf: (string, string) -> string): seq<string> {
    seq(|names|, i requires 0 <= i < |names| => pathOf(root, names[i]))
  }

  /** The paths contributed by a sequence of walk entries. */
  function EntryPaths(entries: seq<WalkEntry>, types: seq<string>, pathOf: (string, string) -> string): seq<string>
    decreases |entries|
  {
    if entries == [] then []
    else
      var last := entries[|entries| - 1];
      EntryPaths(entries[..|entries| - 1], types, pathOf) + JoinPaths(last.root, KeptFiles(last.files, types), pathOf)
  }

  /** The paths contributed by walking each directory in turn. */
  function FilePaths(dirs: seq<string>, types: seq<string>, walk: string -> seq<WalkEntry>,
                     pathOf: (string, string) -> string): seq<string>
    decreases |dirs|
  {
    if dirs == [] then []
    else FilePaths(dirs[..|dirs| - 1], types, walk, pathOf) + EntryPaths(walk(dirs[|dirs| - 1]), types, pathOf)
  }

  lemma KeptFilesSnoc(files: seq<string>, k: nat, types: seq<string>)
    requires k < |files|
    ensures KeptFiles(files[..k + 1], types)
         == KeptFiles(files[..k], types) + (if MatchesAnyType(files[k], types) then [files[k]] else [])
  {
    assert files[..k + 1][..k] == files[..k];
  }

  lemma EntryPathsSnoc(entries: seq<WalkEntry>, j: nat, types: seq<string>, pathOf: (string, string) -> string)
    requires j < |entries|
    ensures EntryPaths(entries[..j + 1], types, pathOf)
         == EntryPaths(entries[..j], types, pathOf) + JoinPaths(entries[j].root, KeptFiles(entries[j].files, types), pathOf)
  {
    assert entries[..j + 1][..j] == entries[..j];
  }

  lemma FilePathsSnoc(dirs: seq<string>, i: nat, types: seq<string>, walk: string -> seq<WalkEntry>,
                      pathOf: (string, string) -> string)
    requires i < |dirs|
    ensures FilePaths(dirs[..i + 1], types, walk, pathOf)
         == FilePaths(dirs[..i], types, walk, pathOf) + EntryPaths(walk(dirs[i]), types, pathOf)
  {
    assert dirs[..i + 1][..i] == dirs[..i];
  }

  lemma JoinPathsSnoc(root: string, names: seq<string>, name: string, pathOf: (string, string) -> string)
    ensures JoinPaths(root, names + [name], pathOf) == JoinPaths(root, names, pathOf) + [pathOf(root, name)]
  {
  }

  /** The innermost loop of `get_all_file_paths`: the paths of the files of one
      walk entry that pass the filter, in walk order. */
  method KeptPaths(entry: WalkEntry, types: seq<string>, pathOf: (string, string) -> string)
    returns (paths: seq<string>)
    ensures paths == JoinPaths(entry.root, KeptFiles(entry.files, types), pathOf)
  {
    paths := [];
    for k := 0 to |entry.files|
      invariant paths == JoinPaths(entry.root, KeptFiles(entry.files[..k], types), pathOf)
    {
      var file := entry.files[k];
      KeptFilesSnoc(entry.files, k, types);
      if MatchesAnyType(file, types) {
        JoinPathsSnoc(entry.root, KeptFiles(entry.files[..k], types), file, pathOf);
        paths := paths + [pathOf(entry.root, file)];
      }
    }
    assert entry.files[..|entry.files|] == entry.files;
  }

  /** The middle loop of `get_all_file_paths`: the kept paths of every entry
      that the walk of one directory yields, in walk order. */
  method WalkedPaths(entries: seq<WalkEntry>, types: seq<string>, pathOf: (string, string) -> string)
    returns (paths: seq<string>)
    ensures paths == EntryPaths(entries, types, pathOf)
  {
    paths := [];
    for j := 0 to |entries|
      invariant paths == EntryPaths(entries[..j], types, pathOf)
    {
      var kept := KeptPaths(entries[j], types, pathOf);
      EntryPathsSnoc(entries, j, types, pathOf);
      paths := paths + kept;
    }
    assert entries[..|entries|] == entries;
  }

  /** `get_all_file_paths`: walks each directory and keeps, in walk order, the
      paths of the files whose name contains one of `types`. */
  method GetAllFilePaths(walk: string -> seq<WalkEntry>, pathOf: (string, string) -> string,
                         dirs: Dirs, types: seq<string> := [""])
    returns (filePaths: seq<string>)
    ensures filePaths == FilePaths(AsList(dirs), types, walk, pathOf)
  {
    var ds := AsList(dirs);
    filePaths := [];
    for i := 0 to |ds|
      invariant filePaths == FilePaths(ds[..i], types, walk, pathOf)
    {
      var paths := WalkedPaths(walk(ds[i]), types, pathOf);
      FilePathsSnoc(ds, i, types, walk, pathOf);
      filePaths := filePaths + paths;
    }
    assert ds[..|ds|] == ds;
  }

  /** `sub` occurs in `s` starting at offset i. */
  predicate OccursAt(sub: string, s: string, i: int) {
    0 <= i <= |s| - |sub| && s[i..i + |sub|] == sub
  }

  /** The substring test agrees with its positional definition, in both directions. */
  lemma {:induction false} IsSubstringAt(sub: string, s: string)
    ensures IsSubstring(sub, s) <==> exists i :: OccursAt(sub, s, i)
    decreases |s|
  {
    if sub <= s {
      assert OccursAt(sub, s, 0);
    } else if s == [] {
      assert forall i :: !OccursAt(sub, s, i);
    } else {
      IsSubstringAt(sub, s[1..]);
      if IsSubstring(sub, s[1..]) {
        var i :| OccursAt(sub, s[1..], i);
        assert s[i + 1..i + 1 + |sub|] == s[1..][i..i + |sub|];
        assert OccursAt(sub, s, i + 1);
      }
      if i :| OccursAt(sub, s, i) {
        assert i != 0;
        assert s[1..][i - 1..i - 1 + |sub|] == s[i..i + |sub|];
        assert OccursAt(sub, s[1..], i - 1);
      }
    }
  }

  /** A file is kept iff it is one of the walked files and some type occurs in its name. */
  lemma {:induction false} KeptFilesMembership(files: seq<string>, types: seq<string>, f: string)
    ensures f in KeptFiles(files, types) <==> f in files && MatchesAnyType(f, types)
    decreases |files|
  {
    if files != [] {
      var init := files[..|files| - 1];
      KeptFilesMembership(init, types, f);
      assert files == init + [files[|files| - 1]];
    }
  }

  /** The default `types=['']` keeps every file, in order. */
  lemma {:induction false} KeptFilesDefault(files: seq<string>)
    ensures KeptFiles(files, [""]) == files
    decreases |files|
  {
    if files != [] {
      var last := files[|files| - 1];
      assert IsSubstring("", last);
      assert MatchesAnyType(last, [""]);
      KeptFilesDefault(files[..|files| - 1]);
      assert files == files[..|files| - 1] + [last];
    }
  }

  /** The filter never invents names: what it keeps is at most what was walked. */
  lemma {:induction false} KeptFilesShorter(files: seq<string>, types: seq<string>)
    ensures |KeptFiles(files, types)| <= |files|
    decreases |files|
  {
    if files != [] {
      KeptFilesShorter(files[..|files| - 1], types);
    }
  }
}
